=== FILE: README.md ===
# packtools style checker and packer, modelled in Dafny

This project models the behaviour that the packtools test suite pins down for
two components.

- `stylechecker.XML` validates a JATS-like article against an XML Schema and
  an ISO Schematron rule set. It finds the element that a diagnostic is about
  (`find_element`) and marks each diagnostic in the document.
  - A schema diagnostic becomes an `<SPS-ERROR>message</SPS-ERROR>` element.
  - A Schematron diagnostic becomes an `<!--SPS-ERROR: message-->` comment.
- `packtools.XMLPacker` lists the asset files an article refers to. It
  rejects a path that does not exist.

The model follows what tests/test_stylechecker.py and tests/test_packbuilder.py
assert. The implementation modules (`packtools/stylechecker.py`,
`packtools/__init__.py`) are not part of this model. Where the tests are
silent, the model states its choice below.

Files:

- `wrappers.dfy`: `Option` and `Result`.
- `tree.dfy`: the document as an immutable tree.
  - Child-index paths locate nodes.
  - Document order is the lexicographic order on paths (`Before`).
- `locator.dfy`: `find_element`, as a pre-order search with root fallback.
- `element_name.dfy`: `EXPOSE_ELEMENTNAME_PATTERN`, as a scanner with the
  regular expression's search semantics.
- `validation.dfy`: the two validation passes over opaque validators.
- `serializer.dfy`: `read()` for the node kinds the markers use. Text is
  escaped and comments are written verbatim.
- `annotator.dfy`: marker insertion and `annotate_errors` for one pass.
- `stylechecker.dfy`: the `XML` object. It covers the constructor, both
  validations, `annotate_errors`, `read` and `find_element`.
- `packer.dfy`: `XMLPacker` and `assets`.
- `samples.dfy`: the tests' fixtures as trees, and each test's assertion
  derived from the general lemmas.

Decisions where the tests leave room:

- `find_element` returns the first element in document order whose tag and
  source line both match.
- `annotate_errors` handles a diagnostic as follows:
  - It extracts the quoted element name and strips the quotes.
  - It resolves the name with fallback to the root.
  - It adds the marker as the last child of that element.
  - A message that names no element is skipped, rather than aborting the
    run. The other diagnostics are still annotated.
- `annotate_errors()` runs only the passes whose validator is attached, on the
  document as given. A pass with no validator contributes no diagnostics,
  whereas `validate()` and `_validate_sch()` fail without one. The Schematron
  test (tests/test_stylechecker.py:151-159) annotates with no schema attached.
  The schema markers are inserted first, then the Schematron markers.
- Inserted markers carry no source line, as nodes created after parsing do
  not. For that reason a marker is never the target of a later lookup.
- The name-extraction pattern's match is the quoted token `'<name>'`: the
  quotes are included and the word `Element` before them is not. That is what
  the tests assert about `group(0)` (tests/test_stylechecker.py:163-185).

## Model

| member | source | states |
|---|---|---|
| Locator.Locate | tests/test_stylechecker.py:88-112 | The returned location holds an element with the requested tag and line, and no earlier location in document order does. `None` means no location in the subtree matches. |
| Locator.FindElement | tests/test_stylechecker.py:88-120 | The root is returned when it matches. Otherwise the first match in document order is returned. With no match, the result is the root when fallback is on, and a `NotFound` error (the ValueError) when it is off. |
| Locator.LocateIn | tests/test_stylechecker.py:88-95 | The search of a run of children returns a location in the first child that holds a match, at that child's first match. Every earlier child holds none. `None` means no child holds a match. |
| Locator.Resolve | tests/test_stylechecker.py:106-112 | The lookup with fallback always lands on an element of the document. That element is the first match in document order, or the root when nothing matches; it is the element `find_element` returns. |
| Locator.FirstMatchUnique | tests/test_stylechecker.py:88-95 | At most one location is the first match, so the lookup's answer is determined. |
| StyleChecker.FindElement | tests/test_stylechecker.py:88-120 | `xml.find_element` gives the root when the root matches. When some element matches, it gives the first match in document order. With no match, it gives the root when fallback is on and `NotFound` when it is off. |
| ElementName.ScanFrom | tests/test_stylechecker.py:163-185 | The scan returns the leftmost quoted, quote-free, non-empty token that follows `Element ` at or after the start position. `None` means there is no such token. |
| ElementName.Extract | tests/test_stylechecker.py:163-185 | There is a match exactly when some `Element '<name>'` token occurs. The match is the text of the leftmost such token, quotes included. |
| ElementName.ExtractIsQuoted | tests/test_stylechecker.py:166-168 | Whatever is extracted starts and ends with a quote and holds at least one non-quote character and no other quote. |
| ElementName.ExtractLeftmost | tests/test_stylechecker.py:166-173 | When a token starts at a position and none starts earlier, that token is exactly what is extracted, even if later quoted tokens follow. |
| ElementName.ExtractNamed | tests/test_stylechecker.py:166-185 | A message beginning `Element '<name>'` yields `'<name>'`, whatever text follows it. |
| Samples.NameTests | tests/test_stylechecker.py:163-185 | The five pattern tests, two of which name `'article'`: `'article'`, `'author-notes'`, `'journal-title-group'` and `'contrib-group'` are extracted from their messages, whatever the messages continue with. |
| Samples.FindTests | tests/test_stylechecker.py:88-120 | On `<a>\n<b>bar</b>\n</a>`: (`b`, 2) finds `<b>`, (`a`, 1) finds the root, (`c`, 2) falls back to the root, and (`c`, 2) without fallback is `NotFound`. |
| Validation.Validate | tests/test_stylechecker.py:62-86 | Without a validator the result is an error. Otherwise the flag is true exactly when the reported error list is empty, and the errors are what the validator reported. |
| StyleChecker.ValidateSchema | tests/test_stylechecker.py:62-77 | `validate()` fails exactly when no schema is attached. Otherwise its errors are the schema's diagnostics for the document, and its flag is true exactly when there are none. |
| StyleChecker.ValidateRules | tests/test_stylechecker.py:133-149 | `_validate_sch()` fails exactly when no Schematron rule set is attached. Otherwise its errors are the rule set's diagnostics for the document, and its flag is true exactly when there are none. |
| StyleChecker.NewXML | tests/test_stylechecker.py:52-60 | A parsed tree is used as given. A path succeeds exactly when it exists, with the document it parses to, whose root is an element with a source line; a missing path gives `FileNotFound`. No validator is attached yet, and the result is always rooted at an element, so it can be annotated and searched. |
| Serializer.Serialize | tests/test_stylechecker.py:128-130 | The text written for a text node reads back, after un-escaping, as exactly its content. |
| Serializer.UnescapeEscape | tests/test_stylechecker.py:128-130 | Escaping text content loses nothing, because un-escaping gives back the original text. |
| Serializer.EscapePlain | tests/test_stylechecker.py:130 | Text with no `&`, `<` or `>` is written unchanged, so such a message appears verbatim. |
| Serializer.SubtreeContained | tests/test_stylechecker.py:128-130 | The text of every node of the tree occurs in the text of the whole tree. |
| Annotator.MarkerSerialization | tests/test_stylechecker.py:130 | A schema marker is written as `<SPS-ERROR>` + escaped message + `</SPS-ERROR>`. A rule marker is written as `<!--SPS-ERROR: ` + message + `-->`. |
| Annotator.AppendChild | tests/test_stylechecker.py:127 | Inserting under a node keeps that node's tag, line and attributes and adds the marker after its existing children. The root keeps its tag, line and attributes. When the inserted node is a marker, the result is the original with a marker added and nothing else changed. |
| Annotator.RemoveAppend | tests/test_stylechecker.py:127 | Taking out the inserted child gives back the document as it was, so the insertion is an inverse pair with removal. |
| Annotator.AppendPreserves | tests/test_stylechecker.py:127 | Every node other than the insertion point and its ancestors stays at the same location and is unchanged. |
| Annotator.ExtendsTrans | tests/test_stylechecker.py:122-159 | Adding markers and then adding more markers again only adds markers, so successive annotations compose. |
| Annotator.ExtendsAt | tests/test_stylechecker.py:122-159 | When a document only gained markers, every location of the original is still valid and its node only gained markers. |
| Annotator.AnnotateOne | tests/test_stylechecker.py:122-130 | A diagnostic whose message names no element leaves the document unchanged. A named one adds exactly one marker. Either way, every node of the original keeps its place and content, gaining at most markers after its children; with the markers taken out the document is as before, and the root keeps its tag and line. |
| Annotator.AnnotateOnePlaces | tests/test_stylechecker.py:122-130 | A named diagnostic's marker becomes the last child of the element `find_element(name, line)` returns, the name being the extracted token without quotes. That element is the first match in document order, or the root when nothing matches. |
| Annotator.AnnotateOneMarks | tests/test_stylechecker.py:122-130 | Right after a named diagnostic is annotated, its marker is at some location of the document. |
| Annotator.AnnotateOneKeeps | tests/test_stylechecker.py:122-130 | In a parsed document, a marker already present is still at the same location, unchanged, after one more diagnostic is annotated. |
| Annotator.Named | tests/test_stylechecker.py:122-130 | The number of diagnostics that get a marker is at most the number of diagnostics. It equals that number exactly when every message names an element. |
| Annotator.StripAppendChild | tests/test_stylechecker.py:127 | Taking all markers out of a document with an inserted marker gives the same result as taking them out of the original. |
| Annotator.Annotate | tests/test_stylechecker.py:122-130 | Annotating a pass's diagnostics in order adds exactly one marker per diagnostic that names an element. Every node of the original keeps its place and content, gaining at most markers after its children; with the markers taken out, the result is the original document. |
| Annotator.AnnotateKeeps | tests/test_stylechecker.py:122-130 | In a parsed document, every marker already in place stays at its location, unchanged, through the annotation of any further diagnostics. |
| Annotator.AnnotateMarksAll | tests/test_stylechecker.py:122-130 | Every diagnostic that names an element has its marker somewhere in the annotated document. |
| Annotator.MarkerShows | tests/test_stylechecker.py:128-130 | A marker in the tree shows as its marker text in the serialized document. |
| StyleChecker.AnnotateErrors | tests/test_stylechecker.py:122-159 | `annotate_errors()` adds one marker per named diagnostic of the schema and Schematron passes, and no others. Every node of the original, including any `SPS-ERROR` content it already had, keeps its place and content and gains at most markers after its children. With the markers taken out the document is unchanged. The root keeps its tag and source line, and the validators stay attached. It applies to any tree rooted at an element. |
| StyleChecker.Read | tests/test_stylechecker.py:128-130 | `read()` returns text in which the text of every node of the document occurs. |
| StyleChecker.AnnotateErrorsShowsAll | tests/test_stylechecker.py:122-159 | After `annotate_errors()`, `read()` contains every named diagnostic of either pass, wrapped in the marker text of its pass. |
| StyleChecker.AnnotateValidUnchanged | tests/test_stylechecker.py:62-69 | A document that every attached validator accepts is not changed by `annotate_errors()`. |
| AnnotationSamples.PlainMarkerText | tests/test_stylechecker.py:130 | For a message without markup characters, the schema marker text is the message verbatim between `<SPS-ERROR>` and `</SPS-ERROR>`. |
| AnnotationSamples.SchemaMarkerPlaced | tests/test_stylechecker.py:122-130 | On `<a><c>bar</c></a>`, a line-1 message `Element 'c'...` resolves to `<c>` and its marker is added there. |
| AnnotationSamples.AnnotateSchemaTest | tests/test_stylechecker.py:122-130 | For any schema that reports `Element 'c'...` on line 1, `read()` contains `<SPS-ERROR>Element 'c'...</SPS-ERROR>`, and the marker is the second child of `<c>`. |
| AnnotationSamples.SchemaMarkerAt | tests/test_stylechecker.py:122-127 | After the insertion under `<c>`, the marker is `<c>`'s second child, after its text `bar`. |
| AnnotationSamples.SchemaMarkerShows | tests/test_stylechecker.py:130 | The annotated `<a><c>bar</c></a>` serializes with the schema message verbatim inside `SPS-ERROR`. |
| AnnotationSamples.AnnotateSingle | tests/test_stylechecker.py:122-127 | A document that only the schema rejects, with one diagnostic, is annotated by that single insertion. |
| AnnotationSamples.AnnotateRulesTest | tests/test_stylechecker.py:151-159 | For any rule set that reports `Element 'Total'...` on line 1, `read()` contains `<!--SPS-ERROR: Element 'Total'...-->`, and the comment is the last child of `<Total>`. |
| AnnotationSamples.RulesMarkerAt | tests/test_stylechecker.py:151-156 | After the insertion under `<Total>`, the comment is the root's third child, after the two `Percent` elements. |
| AnnotationSamples.RulesMarkerShows | tests/test_stylechecker.py:157-159 | The annotated `<Total>` document serializes with `<!--SPS-ERROR: ` + the rule's message + `-->` in it. |
| AnnotationSamples.RulesMarkerPlaced | tests/test_stylechecker.py:151-159 | A line-1 message `Element 'Total'...` resolves to the root `<Total>`. |
| AnnotationSamples.AnnotateSingleRule | tests/test_stylechecker.py:151-156 | A document that only the rule set rejects, with one diagnostic, is annotated by that single insertion. |
| Packer.CollectSound | tests/test_packbuilder.py:80-88 | Every collected name is the `xlink:href` of some `graphic`, `inline-graphic`, `supplementary-material` or `media` element in the tree. |
| Packer.CollectComplete | tests/test_packbuilder.py:80-88 | The `xlink:href` of every such element, at any depth, is collected. |
| Packer.CollectExactly | tests/test_packbuilder.py:80-88 | A name is collected exactly when some asset element of the tree refers to it. |
| Packer.Assets | tests/test_packbuilder.py:80-88 | The asset set of a document holds a name exactly when some `graphic`, `inline-graphic`, `supplementary-material` or `media` element, at any depth, refers to it through `xlink:href`. |
| Packer.PackerAssets | tests/test_packbuilder.py:80-88 | `packer.assets` is exactly the set of names referred to by asset elements, with no duplicates. |
| Packer.NewPacker | tests/test_packbuilder.py:72-78 | Construction succeeds exactly when the path exists, and the packer then holds that path's document. A missing path gives `InvalidPath` (the ValueError). |
| PackerSamples.AssetsTest | tests/test_packbuilder.py:80-88 | The sample article's assets are exactly the five expected file names. |
| PackerSamples.ArticleAssets | tests/test_packbuilder.py:15-55 | Whatever the five file names are, the sample article's asset set is exactly those names. No `mimetype`, `mime-subtype`, `id` or `rid` value appears. |
| PackerSamples.ArticleCollect | tests/test_packbuilder.py:15-55 | The names collected from the sample article, whatever the five file names are, are exactly those five. |
| PackerSamples.FrontAssets | tests/test_packbuilder.py:20-26 | The front matter contributes only the supplementary material's PDF. |
| PackerSamples.BodyAssets | tests/test_packbuilder.py:27-35 | The body contributes the formula's graphic and the inline graphic. The cross-reference contributes nothing. |
| PackerSamples.VideoAssets | tests/test_packbuilder.py:38-44 | The first appendix contributes only the video. |
| PackerSamples.SupplementAssets | tests/test_packbuilder.py:45-51 | Supplementary material without its own reference contributes nothing itself. The graphic nested inside it contributes its file. |
| PackerSamples.BackAssets | tests/test_packbuilder.py:36-53 | The back matter contributes the video and the nested graphic. |

## Left out

- The XML Schema and ISO Schematron engines (lxml). They are foreign library code. Each is an opaque function from a document to its diagnostics, in reported order. The annotation samples hold for every validator that reports the fixture's diagnostic.
- Parsing XML text into a tree, temporary files and the file system. These are I/O. The file system is a map from existing paths to parsed documents.
- The `unicode` type of `read()`'s result (tests/test_stylechecker.py:131, 160). This is a Python 2 encoding detail.
- The lxml error-log type of `errors` (tests/test_stylechecker.py:86). This is a library type; errors are a sequence of (message, line) diagnostics.
- Serializer.Serialize: only the node kinds the markers need are written faithfully. Namespaces appear in Clark notation (`{uri}local`) rather than as prefixes. There is no XML declaration. Attribute order is document order.
- PackerSamples.Article: whitespace-only text between elements is left out of the sample tree. It holds no asset element and does not change the asset set.
- Samples.NameTests: proved for every continuation of the message rather than for the five literal messages. This includes those messages but is not spelled out character by character.
- AnnotationSamples.AnnotateSchemaTest: the message's continuation is any text without `&`, `<` or `>`, standing for lxml's wording of the rejection. The schema compiler is left out.
- Deduplication of markers when `annotate_errors()` is called twice. No test asserts it: a second call adds a second set of markers.
- Where inside the resolved element a marker goes. The tests only look at the serialized text. The model appends the marker as the last child.
- Package and archive building beyond the asset set. That is I/O, and its code is not part of this model.
- Packer.Assets: the result is a set of distinct file names. The test compares sorted lists, so a list that repeats a name is not modelled.
- Annotator.Marker: a Schematron message that contains `--` or ends in `-` cannot be the text of an XML comment (section 2.5 of XML 1.0), and lxml refuses to build such a comment. The model writes the comment anyway and does not model that failure. StyleChecker.AnnotateErrorsShowsAll and AnnotationSamples.AnnotateRulesTest inherit this: for such messages they describe text the program would not produce.

=== FILE: annotator.dfy ===
/** `XML.annotate_errors`: every diagnostic whose message names an element is
    resolved to a node of the document and a marker carrying the message is
    added there. A schema diagnostic becomes an `SPS-ERROR` element holding
    the message as text; a Schematron diagnostic becomes a comment
    `SPS-ERROR: <message>`. The marker is added as the last child of the
    resolved element, so nothing that was already in the document moves. */
module Annotator {
  import opened Wrappers
  import opened Tree
  import opened Locator
  import opened ElementName
  import opened Validation
  import opened Serializer

  /** Which validator reported a diagnostic. */
  datatype Pass = SchemaPass | RulePass

  const MarkerTag: string := "SPS-ERROR"
  const CommentLead: string := "SPS-ERROR: "

  /** The node inserted for a diagnostic; created after parsing, so it has no
      source line. */
  function Marker(pass: Pass, message: string): Node
  {
    match pass
    case SchemaPass => Elem(MarkerTag, None, [], [Text(message)])
    case RulePass => Comment(CommentLead + message)
  }

  /** The text that shows a diagnostic in the serialized document. */
  function MarkerText(pass: Pass, message: string): string
  {
    match pass
    case SchemaPass => "<SPS-ERROR>" + Escape(message) + "</SPS-ERROR>"
    case RulePass => "<!--SPS-ERROR: " + message + "-->"
  }

  /** A marker node serializes to its marker text. */
  lemma MarkerSerialization(pass: Pass, message: string)
    ensures Serialize(Marker(pass, message)) == MarkerText(pass, message)
  {
    if pass == SchemaPass {
      SchemaMarkerSerialization(message);
    }
  }

  lemma SchemaMarkerSerialization(message: string)
    ensures Serialize(Marker(SchemaPass, message)) == MarkerText(SchemaPass, message)
  {
    var m := Marker(SchemaPass, message);
    assert SerializeAll(m.children) == Escape(message);
    assert StartTag(MarkerTag, []) == "<SPS-ERROR>" by {
      assert SerializeAttrs([]) == [];
    }
    assert EndTag(MarkerTag) == "</SPS-ERROR>";
    assert Serialize(m) == StartTag(MarkerTag, []) + Escape(message) + EndTag(MarkerTag);
  }

  /** The node at `p` with `m` added as its last child; every other node is
      as it was. */
  function AppendChild(n: Node, p: Path, m: Node): (r: Node)
    requires ValidPath(n, p) && At(n, p).Elem?
    ensures r.Elem? && r.tag == n.tag && r.line == n.line && r.attrs == n.attrs
    ensures ValidPath(r, p) && At(r, p).Elem?
    ensures var a, b := At(n, p), At(r, p);
            b.tag == a.tag && b.line == a.line && b.attrs == a.attrs && b.children == a.children + [m]
    ensures IsMarker(m) ==> Extends(n, r)
    decreases p
  {
    if p == [] then Elem(n.tag, n.line, n.attrs, n.children + [m])
    else
      var c := AppendChild(n.children[p[0]], p[1..], m);
      var r := Elem(n.tag, n.line, n.attrs, n.children[p[0] := c]);
      assert At(r, p) == At(c, p[1..]);
      r
  }

  /** The node at `p` with its last child taken away. */
  function RemoveLastChild(n: Node, p: Path): Node
    requires ValidPath(n, p) && At(n, p).Elem? && |At(n, p).children| > 0
    decreases p
  {
    if p == [] then Elem(n.tag, n.line, n.attrs, n.children[..|n.children| - 1])
    else Elem(n.tag, n.line, n.attrs, n.children[p[0] := RemoveLastChild(n.children[p[0]], p[1..])])
  }

  /** Annotation is non-destructive: taking the inserted marker out again
      gives back the original document. */
  lemma {:induction false} RemoveAppend(n: Node, p: Path, m: Node)
    requires ValidPath(n, p) && At(n, p).Elem?
    ensures RemoveLastChild(AppendChild(n, p, m), p) == n
    decreases p
  {
    if p == [] {
      assert (n.children + [m])[..|n.children|] == n.children;
    } else {
      var c := n.children[p[0]];
      RemoveAppend(c, p[1..], m);
      var r := AppendChild(n, p, m);
      assert r.children[p[0]] == AppendChild(c, p[1..], m);
      assert r.children[p[0] := RemoveLastChild(r.children[p[0]], p[1..])] == n.children;
    }
  }

  /** A node that is not the insertion point or one of its ancestors is left
      exactly where and as it was. */
  lemma {:induction false} AppendPreserves(n: Node, p: Path, m: Node, q: Path)
    requires ValidPath(n, p) && At(n, p).Elem?
    requires ValidPath(n, q) && !IsPrefix(q, p)
    ensures ValidPath(AppendChild(n, p, m), q) && At(AppendChild(n, p, m), q) == At(n, q)
    decreases p
  {
    var r := AppendChild(n, p, m);
    if p == [] {
      assert q != [];
      assert r.children[q[0]] == n.children[q[0]];
    } else {
      assert q != [];
      if q[0] == p[0] {
        assert !IsPrefix(q[1..], p[1..]);
        AppendPreserves(n.children[p[0]], p[1..], m, q[1..]);
      } else {
        assert r.children[q[0]] == n.children[q[0]];
      }
    }
  }

  /** The inserted marker is the last child of the insertion point. */
  lemma AppendPlaces(n: Node, p: Path, m: Node)
    requires ValidPath(n, p) && At(n, p).Elem?
    ensures var k := |At(n, p).children|;
            ValidPath(AppendChild(n, p, m), p + [k]) && At(AppendChild(n, p, m), p + [k]) == m
  {
    var r := AppendChild(n, p, m);
    var k := |At(n, p).children|;
    AtConcat(r, p, [k]);
  }

  /** A node the annotator produces: an `SPS-ERROR` element, or a comment
      whose text starts with `SPS-ERROR: `. */
  predicate IsMarker(n: Node)
  {
    || (n.Elem? && n.tag == MarkerTag)
    || (n.Comment? && |CommentLead| <= |n.content| && n.content[..|CommentLead|] == CommentLead)
  }

  /** `b` is `a` with markers added: either the same node, or an element with
      the same tag, line and attributes whose old children each grew the same
      way and whose further children, after them, are all markers. */
  predicate Extends(a: Node, b: Node)
    decreases a
  {
    || a == b
    || (&& a.Elem? && b.Elem?
        && a.tag == b.tag && a.line == b.line && a.attrs == b.attrs
        && |a.children| <= |b.children|
        && (forall i :: 0 <= i < |a.children| ==> Extends(a.children[i], b.children[i]))
        && (forall i :: |a.children| <= i < |b.children| ==> IsMarker(b.children[i])))
  }

  /** Adding markers in two steps adds markers. */
  lemma {:induction false} ExtendsTrans(a: Node, b: Node, c: Node)
    requires Extends(a, b) && Extends(b, c)
    ensures Extends(a, c)
    decreases a
  {
    if a != b && b != c {
      forall i | 0 <= i < |a.children|
        ensures Extends(a.children[i], c.children[i])
      {
        ExtendsTrans(a.children[i], b.children[i], c.children[i]);
      }
    }
  }

  /** Under `Extends`, every node of the original is still at its location,
      changed at most by markers added below it. */
  lemma {:induction false} ExtendsAt(a: Node, b: Node, q: Path)
    requires Extends(a, b) && ValidPath(a, q)
    ensures ValidPath(b, q) && Extends(At(a, q), At(b, q))
    decreases q
  {
    if q != [] && a != b {
      ExtendsAt(a.children[q[0]], b.children[q[0]], q[1..]);
    }
  }

  /** Number of marker nodes in the tree. */
  function CountMarkers(n: Node): nat
    decreases n, 1
  {
    (if IsMarker(n) then 1 else 0) + (if n.Elem? then CountMarkersAll(n.children) else 0)
  }

  function CountMarkersAll(cs: seq<Node>): nat
    decreases cs, 0
  {
    if cs == [] then 0 else CountMarkers(cs[0]) + CountMarkersAll(cs[1..])
  }

  /** Each marker is one marker: a schema marker's message text is not another. */
  lemma MarkerCount(pass: Pass, message: string)
    ensures IsMarker(Marker(pass, message)) && CountMarkers(Marker(pass, message)) == 1
  {
    if pass == RulePass {
      assert (CommentLead + message)[..|CommentLead|] == CommentLead;
    } else {
      assert CountMarkersAll([Text(message)]) == 0;
    }
  }

  lemma {:induction false} CountMarkersAppend(cs: seq<Node>, m: Node)
    ensures CountMarkersAll(cs + [m]) == CountMarkersAll(cs) + CountMarkers(m)
  {
    if cs == [] {
      assert [] + [m] == [m];
    } else {
      CountMarkersAppend(cs[1..], m);
      assert (cs + [m])[1..] == cs[1..] + [m];
    }
  }

  lemma {:induction false} CountMarkersUpdate(cs: seq<Node>, i: nat, c: Node)
    requires i < |cs|
    ensures CountMarkersAll(cs[i := c]) + CountMarkers(cs[i]) == CountMarkersAll(cs) + CountMarkers(c)
    decreases i
  {
    if i > 0 {
      CountMarkersUpdate(cs[1..], i - 1, c);
      assert cs[i := c][1..] == cs[1..][i - 1 := c];
    }
  }

  /** Adding a node adds exactly its markers. */
  lemma {:induction false} CountMarkersAppendChild(n: Node, p: Path, m: Node)
    requires ValidPath(n, p) && At(n, p).Elem?
    ensures CountMarkers(AppendChild(n, p, m)) == CountMarkers(n) + CountMarkers(m)
    decreases p
  {
    var r := AppendChild(n, p, m);
    if p == [] {
      CountMarkersAppend(n.children, m);
    } else {
      var c := n.children[p[0]];
      CountMarkersAppendChild(c, p[1..], m);
      CountMarkersUpdate(n.children, p[0], AppendChild(c, p[1..], m));
    }
  }

  /** The document with every marker (and whatever is inside it) taken out. */
  function Strip(n: Node): Node
    decreases n, 1
  {
    if n.Elem? then Elem(n.tag, n.line, n.attrs, StripAll(n.children)) else n
  }

  function StripAll(cs: seq<Node>): seq<Node>
    decreases cs, 0
  {
    if cs == [] then [] else (if IsMarker(cs[0]) then [] else [Strip(cs[0])]) + StripAll(cs[1..])
  }

  lemma {:induction false} StripAllAppend(cs: seq<Node>, m: Node)
    requires IsMarker(m)
    ensures StripAll(cs + [m]) == StripAll(cs)
  {
    if cs == [] {
      assert [] + [m] == [m];
      assert [m][1..] == [];
    } else {
      StripAllAppend(cs[1..], m);
      assert (cs + [m])[1..] == cs[1..] + [m];
    }
  }

  lemma {:induction false} StripAllUpdate(cs: seq<Node>, i: nat, c: Node)
    requires i < |cs|
    requires IsMarker(c) == IsMarker(cs[i]) && Strip(c) == Strip(cs[i])
    ensures StripAll(cs[i := c]) == StripAll(cs)
    decreases i
  {
    if i > 0 {
      StripAllUpdate(cs[1..], i - 1, c);
      assert cs[i := c][1..] == cs[1..][i - 1 := c];
    }
  }

  /** Adding a marker anywhere changes nothing but the markers. */
  lemma {:induction false} StripAppendChild(n: Node, p: Path, m: Node)
    requires ValidPath(n, p) && At(n, p).Elem? && IsMarker(m)
    ensures Strip(AppendChild(n, p, m)) == Strip(n)
    decreases p
  {
    if p == [] {
      StripAllAppend(n.children, m);
    } else {
      var c := n.children[p[0]];
      var c' := AppendChild(c, p[1..], m);
      StripAppendChild(c, p[1..], m);
      StripAllUpdate(n.children, p[0], c');
    }
  }

  /** Annotates one diagnostic: when its message names an element, the marker
      goes under the element `find_element` resolves that name and the
      diagnostic's line to (the root when nothing matches); a message that
      names no element is skipped and leaves the document as it was. Either
      way nothing but a marker is added. */
  function AnnotateOne(root: Node, pass: Pass, d: Diagnostic): (r: Node)
    requires root.Elem?
    ensures r.Elem? && r.tag == root.tag && r.line == root.line
    ensures Extract(d.message).None? ==> r == root
    ensures CountMarkers(r) == CountMarkers(root) + (if Extract(d.message).Some? then 1 else 0)
    ensures Strip(r) == Strip(root)
    ensures Extends(root, r)
  {
    match Extract(d.message)
    case None => root
    case Some(token) =>
      ExtractIsQuoted(d.message);
      var p := Resolve(root, Unquote(token), d.line);
      var m := Marker(pass, d.message);
      MarkerCount(pass, d.message);
      CountMarkersAppendChild(root, p, m);
      StripAppendChild(root, p, m);
      AppendChild(root, p, m)
  }

  /** Where a named diagnostic's marker goes: it becomes the last child of the
      node `find_element(name, line)` returns, the name being the extracted
      token without its quotes. That node is the first match in document
      order, or the root when nothing matches. */
  lemma AnnotateOnePlaces(root: Node, pass: Pass, d: Diagnostic)
    requires root.Elem? && Extract(d.message).Some?
    ensures |Extract(d.message).value| >= 2
    ensures exists p, k ::
              && ValidPath(root, p)
              && FindElement(root, Unquote(Extract(d.message).value), d.line, true) == Success(At(root, p))
              && (|| FirstMatch(root, Unquote(Extract(d.message).value), d.line, p)
                  || (p == [] && NoMatch(root, Unquote(Extract(d.message).value), d.line)))
              && k == |At(root, p).children|
              && ValidPath(AnnotateOne(root, pass, d), p + [k])
              && At(AnnotateOne(root, pass, d), p + [k]) == Marker(pass, d.message)
  {
    ExtractIsQuoted(d.message);
    var p := Resolve(root, Unquote(Extract(d.message).value), d.line);
    AppendPlaces(root, p, Marker(pass, d.message));
  }

  /** The location of a named diagnostic's marker right after it is added. */
  lemma AnnotateOneMarks(root: Node, pass: Pass, d: Diagnostic) returns (q: Path)
    requires root.Elem? && Extract(d.message).Some?
    ensures ValidPath(AnnotateOne(root, pass, d), q) && At(AnnotateOne(root, pass, d), q) == Marker(pass, d.message)
  {
    ExtractIsQuoted(d.message);
    var p := Resolve(root, Unquote(Extract(d.message).value), d.line);
    AppendPlaces(root, p, Marker(pass, d.message));
    q := p + [|At(root, p).children|];
  }

  /** `n` occurs somewhere in the tree `root`. */
  ghost predicate HasNode(root: Node, n: Node)
  {
    exists q :: ValidPath(root, q) && At(root, q) == n
  }

  /** Nothing inside a marker is an element that carries a source line. */
  lemma MarkerInterior(pass: Pass, message: string, q: Path)
    requires ValidPath(Marker(pass, message), q)
    ensures !At(Marker(pass, message), q).Elem? || At(Marker(pass, message), q).line.None?
  {
    if q != [] {
      assert q[1..] == [];
    }
  }

  /** Annotating never moves or changes a marker that is already in place:
      the marker at `q` is still at `q`, so markers accumulate. The root of a
      parsed document carries a source line, which is what keeps it apart
      from a marker. */
  lemma AnnotateOneKeeps(root: Node, pass: Pass, d: Diagnostic, q: Path, pass': Pass, message: string)
    requires IsDocument(root)
    requires ValidPath(root, q) && At(root, q) == Marker(pass', message)
    ensures ValidPath(AnnotateOne(root, pass, d), q) && At(AnnotateOne(root, pass, d), q) == Marker(pass', message)
  {
    match Extract(d.message)
    case None =>
    case Some(token) =>
      ExtractIsQuoted(d.message);
      var p := Resolve(root, Unquote(token), d.line);
      if IsPrefix(q, p) {
        assert p == q + p[|q|..];
        AtConcat(root, q, p[|q|..]);
        MarkerInterior(pass', message, p[|q|..]);
        assert false;
      }
      AppendPreserves(root, p, Marker(pass, d.message), q);
  }

  /** `annotate_errors` for the diagnostics of one pass, in reported order:
      one marker per diagnostic that names an element, and with the markers
      taken out the document it started from. */
  function Annotate(root: Node, pass: Pass, ds: seq<Diagnostic>): (r: Node)
    requires root.Elem?
    ensures r.Elem? && r.tag == root.tag && r.line == root.line
    ensures CountMarkers(r) == CountMarkers(root) + Named(ds)
    ensures Strip(r) == Strip(root)
    ensures Extends(root, r)
    decreases |ds|
  {
    if ds == [] then root
    else
      var next := AnnotateOne(root, pass, ds[0]);
      var r := Annotate(next, pass, ds[1..]);
      ExtendsTrans(root, next, r);
      r
  }

  /** How many of `ds` name an element (and so get a marker). */
  function Named(ds: seq<Diagnostic>): (k: nat)
    ensures k <= |ds|
    ensures k == |ds| <==> forall i :: 0 <= i < |ds| ==> Extract(ds[i].message).Some?
  {
    if ds == [] then 0
    else (if Extract(ds[0].message).Some? then 1 else 0) + Named(ds[1..])
  }

  /** Markers already in the document survive the annotation of further
      diagnostics, each at the location it had. */
  lemma {:induction false} AnnotateKeeps(root: Node, pass: Pass, ds: seq<Diagnostic>, q: Path, pass': Pass, message: string)
    requires IsDocument(root)
    requires ValidPath(root, q) && At(root, q) == Marker(pass', message)
    ensures ValidPath(Annotate(root, pass, ds), q) && At(Annotate(root, pass, ds), q) == Marker(pass', message)
    decreases |ds|
  {
    if ds != [] {
      AnnotateOneKeeps(root, pass, ds[0], q, pass', message);
      AnnotateKeeps(AnnotateOne(root, pass, ds[0]), pass, ds[1..], q, pass', message);
    }
  }

  /** Every diagnostic that names an element leaves its marker in the
      annotated document. */
  lemma {:induction false} AnnotateMarksAll(root: Node, pass: Pass, ds: seq<Diagnostic>, i: nat)
    requires root.Elem? && root.line.Some?
    requires i < |ds| && Extract(ds[i].message).Some?
    ensures HasNode(Annotate(root, pass, ds), Marker(pass, ds[i].message))
    decreases |ds|
  {
    var next := AnnotateOne(root, pass, ds[0]);
    assert Annotate(root, pass, ds) == Annotate(next, pass, ds[1..]);
    if i == 0 {
      var q := AnnotateOneMarks(root, pass, ds[0]);
      AnnotateKeeps(next, pass, ds[1..], q, pass, ds[0].message);
    } else {
      assert ds[1..][i - 1] == ds[i];
      AnnotateMarksAll(next, pass, ds[1..], i - 1);
    }
  }

  /** A marker in the tree shows as its marker text in the serialized document. */
  lemma MarkerShows(root: Node, pass: Pass, message: string)
    requires HasNode(root, Marker(pass, message))
    ensures Contains(Serialize(root), MarkerText(pass, message))
  {
    var q :| ValidPath(root, q) && At(root, q) == Marker(pass, message);
    SubtreeContained(root, q);
    MarkerSerialization(pass, message);
  }
}

=== FILE: element_name.dfy ===
/** `EXPOSE_ELEMENTNAME_PATTERN`: a validator message names the offending
    element as the first single-quoted token that directly follows the word
    `Element `; the token is returned with its quotes, as the pattern's whole
    match is. This module is a hand-written scanner with the search semantics
    of that pattern (leftmost match wins, the name is at least one non-quote
    character). */
module ElementName {
  import opened Wrappers

  const Lead: string := "Element "

  /** `s[i..j]` is a quoted, non-empty, quote-free name directly after `Element `. */
  ghost predicate TokenAt(s: string, i: int, j: int)
  {
    && |Lead| <= i
    && i + 3 <= j <= |s|
    && s[i - |Lead|..i] == Lead
    && s[i] == '\''
    && s[j - 1] == '\''
    && forall k :: i < k < j - 1 ==> s[k] != '\''
  }

  /** Index of the first quote at or after `k`, or `|s|` when there is none. */
  function NextQuote(s: string, k: nat): (r: nat)
    requires k <= |s|
    ensures k <= r <= |s|
    ensures r < |s| ==> s[r] == '\''
    ensures forall m :: k <= m < r ==> s[m] != '\''
    decreases |s| - k
  {
    if k == |s| || s[k] == '\'' then k else NextQuote(s, k + 1)
  }

  /** A token that starts at `i` ends at the first quote after its opening one. */
  lemma TokenEnd(s: string, i: int, j: int)
    requires TokenAt(s, i, j)
    ensures j == NextQuote(s, i + 1) + 1
  {
  }

  /** Leftmost-match search for a token starting at or after position `i`. */
  function ScanFrom(s: string, i: nat): (r: Option<(nat, nat)>)
    requires i <= |s|
    ensures r.Some? ==> && i <= r.value.0
                        && TokenAt(s, r.value.0, r.value.1)
                        && forall a, b :: i <= a < r.value.0 ==> !TokenAt(s, a, b)
    ensures r.None? ==> forall a, b :: i <= a ==> !TokenAt(s, a, b)
    decreases |s| - i
  {
    if i == |s| then None
    else if |Lead| <= i && s[i - |Lead|..i] == Lead && s[i] == '\'' then
      var j := NextQuote(s, i + 1);
      if i + 1 < j < |s| then Some((i, j + 1))
      else
        assert forall b :: !TokenAt(s, i, b) by {
          forall b | TokenAt(s, i, b) ensures false {
            TokenEnd(s, i, b);
          }
        }
        ScanFrom(s, i + 1)
    else ScanFrom(s, i + 1)
  }

  /** `EXPOSE_ELEMENTNAME_PATTERN.search(message).group(0)`, or None when the
      search finds nothing. */
  function Extract(message: string): (r: Option<string>)
    ensures r.Some? <==> exists a, b :: TokenAt(message, a, b)
    ensures r.Some? ==> exists a, b :: && TokenAt(message, a, b)
                                       && r.value == message[a..b]
                                       && forall a', b' :: a' < a ==> !TokenAt(message, a', b')
  {
    match ScanFrom(message, 0)
    case Some((a, b)) => Some(message[a..b])
    case None => None
  }

  /** An extracted token is a quoted name: the quotes surround at least one
      character and none inside. */
  lemma ExtractIsQuoted(message: string)
    requires Extract(message).Some?
    ensures var t := Extract(message).value;
            && |t| >= 3 && t[0] == '\'' && t[|t| - 1] == '\''
            && forall k :: 0 < k < |t| - 1 ==> t[k] != '\''
  {
    var (a, b) := ScanFrom(message, 0).value;
    var t := message[a..b];
    assert t == Extract(message).value;
    assert forall k :: 0 < k < |t| - 1 ==> t[k] == message[a + k];
  }

  /** Completeness: when a token starts at `a` and none starts earlier, the
      search returns exactly that token. */
  lemma ExtractLeftmost(message: string, a: int, b: int)
    requires TokenAt(message, a, b)
    requires forall a', b' :: a' < a ==> !TokenAt(message, a', b')
    ensures Extract(message) == Some(message[a..b])
  {
    var r := ScanFrom(message, 0);
    assert r.Some?;
    var (a0, b0) := r.value;
    assert a0 == a;
    TokenEnd(message, a, b);
    TokenEnd(message, a0, b0);
  }

  /** `name` holds no quote character. */
  predicate QuoteFree(name: string)
  {
    '\'' !in name
  }

  /** A message that opens with `Element '<name>'` names that element,
      whatever quoted tokens follow. */
  lemma ExtractOpening(message: string, name: string, rest: string)
    requires |name| > 0 && QuoteFree(name)
    requires message == Lead + "'" + name + "'" + rest
    ensures Extract(message) == Some("'" + name + "'")
  {
    var i, j := |Lead|, |Lead| + |name| + 2;
    assert forall k :: 0 <= k < |name| ==> name[k] in name;
    assert message[..i] == Lead;
    assert message[i] == '\'' && message[j - 1] == '\'';
    assert forall k :: i < k < j - 1 ==> message[k] == name[k - i - 1];
    assert TokenAt(message, i, j);
    assert message[i..j] == "'" + name + "'";
    ExtractLeftmost(message, i, j);
  }

  /** `Element '<name>'` at the start of a message is what is extracted,
      whatever follows it, later quoted tokens included. */
  lemma ExtractNamed(name: string, rest: string)
    requires |name| > 0 && QuoteFree(name)
    ensures Extract("Element '" + name + "'" + rest) == Some("'" + name + "'")
  {
    assert "Element '" + name + "'" + rest == Lead + "'" + name + "'" + rest;
    ExtractOpening(Lead + "'" + name + "'" + rest, name, rest);
  }

  /** The bare element name inside a quoted token (`'c'` gives `c`), which is
      the tag the locator is asked for. */
  function Unquote(token: string): (name: string)
    requires |token| >= 2
    ensures token == [token[0]] + name + [token[|token| - 1]]
  {
    token[1..|token| - 1]
  }
}

=== FILE: locator.dfy ===
/** `XML.find_element`: resolve a (tag, source line) pair to an element of the
    document, searching in document order and falling back to the root. */
module Locator {
  import opened Wrappers
  import opened Tree

  /** `find_element` with `fallback=False` raises ValueError when nothing matches. */
  datatype LookupError = NotFound(tag: string, line: nat)

  /** An element whose tag is `tag` and whose recorded source line is `line`. */
  predicate IsMatch(n: Node, tag: string, line: nat)
  {
    n.Elem? && n.tag == tag && n.line == Some(line)
  }

  /** No location of `n` holds a match. */
  ghost predicate NoMatch(n: Node, tag: string, line: nat)
  {
    forall q :: ValidPath(n, q) ==> !IsMatch(At(n, q), tag, line)
  }

  /** `p` holds a match and no location before it in document order does. */
  ghost predicate FirstMatch(n: Node, tag: string, line: nat, p: Path)
  {
    && ValidPath(n, p)
    && IsMatch(At(n, p), tag, line)
    && forall q :: ValidPath(n, q) && Before(q, p) ==> !IsMatch(At(n, q), tag, line)
  }

  /** Pre-order search of the subtree `n`: the location of its first match. */
  function Locate(n: Node, tag: string, line: nat): (r: Option<Path>)
    ensures r.Some? ==> FirstMatch(n, tag, line, r.value)
    ensures r.None? ==> NoMatch(n, tag, line)
    decreases n, 0
  {
    if IsMatch(n, tag, line) then Some([])
    else if !n.Elem? then None
    else
      var r := LocateIn(n.children, 0, tag, line);
      if r.None? then
        assert forall q :: ValidPath(n, q) && q != [] ==> ValidPath(n.children[q[0]], q[1..]);
        None
      else
        var p := r.value;
        assert ValidPath(n, p);
        forall q | ValidPath(n, q) && Before(q, p)
          ensures !IsMatch(At(n, q), tag, line)
        {
          if q != [] {
            assert ValidPath(n.children[q[0]], q[1..]);
            assert At(n, q) == At(n.children[q[0]], q[1..]);
            if q[0] == p[0] {
              assert Before(q[1..], p[1..]);
            }
          }
        }
        r
  }

  /** Pre-order search of the children `cs[i..]`; a found location starts with
      the index of the child it lies in. */
  function LocateIn(cs: seq<Node>, i: nat, tag: string, line: nat): (r: Option<Path>)
    requires i <= |cs|
    ensures r.Some? ==> && r.value != []
                        && i <= r.value[0] < |cs|
                        && FirstMatch(cs[r.value[0]], tag, line, r.value[1..])
                        && forall j :: i <= j < r.value[0] ==> NoMatch(cs[j], tag, line)
    ensures r.None? ==> forall j :: i <= j < |cs| ==> NoMatch(cs[j], tag, line)
    decreases cs, |cs| - i
  {
    if i == |cs| then None
    else
      match Locate(cs[i], tag, line)
      case Some(p) =>
        assert ([i] + p)[1..] == p;
        Some([i] + p)
      case None => LocateIn(cs, i + 1, tag, line)
  }

  /** `find_element(tag, line, fallback)` on the document whose root is `root`. */
  function FindElement(root: Node, tag: string, line: nat, fallback: bool): (r: Result<Node, LookupError>)
    requires root.Elem?
    ensures IsMatch(root, tag, line) ==> r == Success(root)
    ensures !NoMatch(root, tag, line) ==>
              r.Success? && exists p :: FirstMatch(root, tag, line, p) && r.value == At(root, p)
    ensures NoMatch(root, tag, line) && fallback ==> r == Success(root)
    ensures NoMatch(root, tag, line) && !fallback ==> r == Failure(NotFound(tag, line))
  {
    match Locate(root, tag, line)
    case Some(p) => Success(At(root, p))
    case None => if fallback then Success(root) else Failure(NotFound(tag, line))
  }

  /** The location `find_element(tag, line)` (fallback enabled) resolves to:
      always an element of the document. */
  function Resolve(root: Node, tag: string, line: nat): (p: Path)
    requires root.Elem?
    ensures ValidPath(root, p) && At(root, p).Elem?
    ensures Success(At(root, p)) == FindElement(root, tag, line, true)
    ensures p == [] || IsMatch(At(root, p), tag, line)
    ensures FirstMatch(root, tag, line, p) || (p == [] && NoMatch(root, tag, line))
  {
    match Locate(root, tag, line)
    case Some(p) => p
    case None => []
  }

  /** The first match is unique, so the search result does not depend on how
      it is carried out. */
  lemma FirstMatchUnique(n: Node, tag: string, line: nat, p: Path, p': Path)
    requires FirstMatch(n, tag, line, p) && FirstMatch(n, tag, line, p')
    ensures p == p'
  {
    BeforeTotal(p, p');
  }
}

=== FILE: packer.dfy ===
/** `packtools.XMLPacker`: the set of asset file names an article refers to,
    collected from the whole tree, and the constructor that rejects a path
    that does not exist. */
module Packer {
  import opened Wrappers
  import opened Tree

  /** The `xlink:href` attribute, named by namespace and local name. */
  const XlinkHref: string := "{http://www.w3.org/1999/xlink}href"

  /** The elements whose `xlink:href` names an asset file. */
  const AssetTags: set<string> := {"graphic", "inline-graphic", "supplementary-material", "media"}

  /** The asset file this very node refers to, if any; its descendants are
      not looked at. */
  function OwnAsset(n: Node): (r: Option<string>)
    ensures r.Some? ==> n.Elem? && n.tag in AssetTags
  {
    if n.Elem? && n.tag in AssetTags then GetAttr(n.attrs, XlinkHref) else None
  }

  /** The fold behind `packer.assets`: the node's own reference and those of
      its descendants. */
  function Collect(n: Node): set<string>
    decreases n, 1
  {
    (if OwnAsset(n).Some? then {OwnAsset(n).value} else {})
    + (if n.Elem? then CollectAll(n.children) else {})
  }

  function CollectAll(cs: seq<Node>): set<string>
    decreases cs, 0
  {
    if cs == [] then {} else Collect(cs[0]) + CollectAll(cs[1..])
  }

  /** Some node of the tree, at any depth, refers to asset `a`. */
  ghost predicate References(n: Node, a: string)
  {
    exists q :: ValidPath(n, q) && OwnAsset(At(n, q)) == Some(a)
  }

  /** Every collected name is referred to by some node of the tree. */
  lemma {:induction false} CollectSound(n: Node, a: string)
    requires a in Collect(n)
    ensures References(n, a)
    decreases n, 1
  {
    if OwnAsset(n) == Some(a) {
      assert ValidPath(n, []) && At(n, []) == n;
    } else {
      var k := CollectAllSound(n.children, a);
      var q :| ValidPath(n.children[k], q) && OwnAsset(At(n.children[k], q)) == Some(a);
      assert ValidPath(n, [k] + q) && At(n, [k] + q) == At(n.children[k], q) by {
        assert ([k] + q)[0] == k && ([k] + q)[1..] == q;
      }
    }
  }

  /** A name collected from the children comes from one of them. */
  lemma {:induction false} CollectAllSound(cs: seq<Node>, a: string) returns (k: nat)
    requires a in CollectAll(cs)
    ensures k < |cs| && References(cs[k], a)
    decreases cs, 0
  {
    if a in Collect(cs[0]) {
      CollectSound(cs[0], a);
      k := 0;
    } else {
      var k' := CollectAllSound(cs[1..], a);
      k := k' + 1;
    }
  }

  /** Every referred-to name is collected, whatever its depth. */
  lemma {:induction false} CollectComplete(n: Node, q: Path)
    requires ValidPath(n, q) && OwnAsset(At(n, q)).Some?
    ensures OwnAsset(At(n, q)).value in Collect(n)
    decreases q
  {
    if q != [] {
      CollectComplete(n.children[q[0]], q[1..]);
      CollectAllComplete(n.children, q[0]);
    }
  }

  /** The children's names include each child's names. */
  lemma {:induction false} CollectAllComplete(cs: seq<Node>, k: nat)
    requires k < |cs|
    ensures Collect(cs[k]) <= CollectAll(cs)
    decreases k
  {
    if k > 0 {
      CollectAllComplete(cs[1..], k - 1);
    }
  }

  /** The collected set is exactly the set of referred-to names. */
  lemma CollectExactly(n: Node, a: string)
    ensures a in Collect(n) <==> References(n, a)
  {
    if a in Collect(n) {
      CollectSound(n, a);
    }
    if References(n, a) {
      var q :| ValidPath(n, q) && OwnAsset(At(n, q)) == Some(a);
      CollectComplete(n, q);
    }
  }

  datatype XMLPacker = XMLPacker(path: string, doc: Node)

  /** `XMLPacker(path)` raises ValueError for a path that does not exist. */
  datatype PackError = InvalidPath(path: string)

  /** `XMLPacker(path)` over a file system mapping each existing path to the
      document it parses to. */
  function NewPacker(files: map<string, Document>, path: string): (r: Result<XMLPacker, PackError>)
    ensures r.Success? <==> path in files
    ensures r.Success? ==> r.value.path == path && r.value.doc == files[path]
    ensures r.Failure? ==> r.error == InvalidPath(path)
  {
    if path in files then Success(XMLPacker(path, files[path])) else Failure(InvalidPath(path))
  }

  /** `packer.assets`: the distinct file names referred to anywhere in the
      document, each once. */
  function Assets(n: Node): (r: set<string>)
    ensures forall a :: a in r <==> References(n, a)
  {
    forall a ensures a in Collect(n) <==> References(n, a) {
      CollectExactly(n, a);
    }
    Collect(n)
  }

  /** `packer.assets` of a constructed packer. */
  function PackerAssets(p: XMLPacker): (r: set<string>)
    ensures forall a :: a in r <==> References(p.doc, a)
  {
    Assets(p.doc)
  }
}

=== FILE: samples.dfy ===
/** The fixtures of the test suite as trees, and the behaviour the tests
    assert about them, derived from the general properties. The fixture
    schema and rule set are given here as the validators they compile to. */
module Samples {
  import opened Wrappers
  import opened Tree
  import opened ElementName
  import Locator

  /** `<a>\n<b>bar</b>\n</a>`: `a` on line 1, `b` on line 2. */
  const TwoLineDoc: Node :=
    Elem("a", Some(1), [], [Text("\n"), Elem("b", Some(2), [], [Text("bar")]), Text("\n")])

  lemma FindTests()
    ensures Locator.FindElement(TwoLineDoc, "b", 2, true) == Success(TwoLineDoc.children[1])
    ensures Locator.FindElement(TwoLineDoc, "a", 1, true) == Success(TwoLineDoc)
    ensures Locator.FindElement(TwoLineDoc, "c", 2, true) == Success(TwoLineDoc)
    ensures Locator.FindElement(TwoLineDoc, "c", 2, false) == Failure(Locator.NotFound("c", 2))
  {
  }

  /** `ElementNamePatternTests`: whatever follows the element token of the
      five test messages (later quoted tokens such as `'dtd-version'`, `'3.0'`
      and `'1.0'` included), the quoted name is what is extracted. */
  lemma NameTests(rest: string)
    ensures Extract("Element '" + "article" + "'" + rest) == Some("'" + "article" + "'")
    ensures Extract("Element '" + "author-notes" + "'" + rest) == Some("'" + "author-notes" + "'")
    ensures Extract("Element '" + "journal-title-group" + "'" + rest) == Some("'" + "journal-title-group" + "'")
    ensures Extract("Element '" + "contrib-group" + "'" + rest) == Some("'" + "contrib-group" + "'")
  {
    ExtractNamed("article", rest);
    ExtractNamed("author-notes", rest);
    ExtractNamed("journal-title-group", rest);
    ExtractNamed("contrib-group", rest);
  }
}

/** The annotation tests: `<a><c>bar</c></a>` rejected by the schema, and the
    `Total`/`Percent` document failing the Schematron rule. The validators
    stay opaque: each lemma holds for every validator that reports what the
    test's fixture reports, a message opening with the element's name. */
module AnnotationSamples {
  import opened Wrappers
  import opened Tree
  import opened ElementName
  import opened Validation
  import opened Serializer
  import opened Annotator
  import opened StyleChecker

  /** `<a><c>bar</c></a>`, all on line 1. */
  const InvalidDoc: Node := Elem("a", Some(1), [], [Elem("c", Some(1), [], [Text("bar")])])

  /** The marker text of a message without markup characters is the message
      wrapped in its pass's delimiters. */
  lemma PlainMarkerText(message: string)
    requires forall k :: 0 <= k < |message| ==> !IsMarkup(message[k])
    ensures MarkerText(SchemaPass, message) == "<SPS-ERROR>" + message + "</SPS-ERROR>"
  {
    EscapePlain(message);
  }

  /** Where the schema diagnostic of the test lands: under `<c>`, the element
      the message names on line 1. */
  lemma SchemaMarkerPlaced(message: string, rest: string)
    requires message == "Element '" + "c" + "'" + rest
    ensures Extract(message) == Some("'c'")
    ensures AnnotateOne(InvalidDoc, SchemaPass, Diagnostic(message, 1))
            == AppendChild(InvalidDoc, [0], Marker(SchemaPass, message))
  {
    ExtractNamed("c", rest);
    assert "'" + "c" + "'" == "'c'";
    assert Unquote("'c'") == "c";
    assert Locator.Resolve(InvalidDoc, "c", 1) == [0];
  }

  /** `test_annotate_errors`: the schema's message shows verbatim inside an
      `SPS-ERROR` element, and that element sits under `<c>`. */
  lemma AnnotateSchemaTest(schema: Validator, rest: string)
    requires schema(InvalidDoc) == [Diagnostic("Element 'c'" + rest, 1)]
    requires forall k :: 0 <= k < |rest| ==> !IsMarkup(rest[k])
    ensures var annotated := AnnotateErrors(XML(InvalidDoc, Some(schema), None));
            && Contains(Read(annotated), "<SPS-ERROR>" + "Element 'c'" + rest + "</SPS-ERROR>")
            && ValidPath(annotated.root, [0, 1])
            && At(annotated.root, [0, 1]) == Marker(SchemaPass, "Element 'c'" + rest)
  {
    var root := SchemaAnnotated(schema, rest);
    SchemaMarkerAt(rest);
    SchemaMarkerShows(rest);
    assert Read(AnnotateErrors(XML(InvalidDoc, Some(schema), None))) == Serialize(root);
  }

  /** The marker added under `<c>` is its second child. */
  lemma SchemaMarkerAt(rest: string)
    ensures var root := AppendChild(InvalidDoc, [0], Marker(SchemaPass, "Element 'c'" + rest));
            ValidPath(root, [0, 1]) && At(root, [0, 1]) == Marker(SchemaPass, "Element 'c'" + rest)
  {
    AppendPlaces(InvalidDoc, [0], Marker(SchemaPass, "Element 'c'" + rest));
    assert [0] + [1] == [0, 1];
  }

  /** The text of the annotated tree shows the marker. */
  lemma SchemaMarkerShows(rest: string)
    requires forall k :: 0 <= k < |rest| ==> !IsMarkup(rest[k])
    ensures Contains(Serialize(AppendChild(InvalidDoc, [0], Marker(SchemaPass, "Element 'c'" + rest))),
                     "<SPS-ERROR>" + "Element 'c'" + rest + "</SPS-ERROR>")
  {
    var message := "Element 'c'" + rest;
    var mk := Marker(SchemaPass, message);
    var root := AppendChild(InvalidDoc, [0], mk);
    SchemaMarkerAt(rest);
    assert HasNode(root, mk);
    MarkerShows(root, SchemaPass, message);
    assert forall k :: 0 <= k < |message| ==> !IsMarkup(message[k]) by {
      assert forall k :: 11 <= k < |message| ==> message[k] == rest[k - 11];
    }
    PlainMarkerText(message);
    assert "<SPS-ERROR>" + message + "</SPS-ERROR>" == "<SPS-ERROR>" + "Element 'c'" + rest + "</SPS-ERROR>";
  }

  /** The annotated tree of the schema test. */
  lemma SchemaAnnotated(schema: Validator, rest: string) returns (root: Node)
    requires schema(InvalidDoc) == [Diagnostic("Element 'c'" + rest, 1)]
    ensures root == AnnotateErrors(XML(InvalidDoc, Some(schema), None)).root
    ensures root == AppendChild(InvalidDoc, [0], Marker(SchemaPass, "Element 'c'" + rest))
  {
    var message := "Element 'c'" + rest;
    var x := XML(InvalidDoc, Some(schema), None);
    var d := Diagnostic(message, 1);
    assert message == "Element '" + "c" + "'" + rest;
    SchemaMarkerPlaced(message, rest);
    root := AnnotateErrors(x).root;
    AnnotateSingle(x, d);
  }

  /** Annotating a document that only the schema rejects, with one diagnostic. */
  lemma AnnotateSingle(x: XML, d: Diagnostic)
    requires IsDocument(x.root) && x.schematron.None?
    requires x.xmlschema.Some? && x.xmlschema.value(x.root) == [d]
    ensures AnnotateErrors(x).root == AnnotateOne(x.root, SchemaPass, d)
  {
    assert Errors(ValidateSchema(x)) == [d];
    assert Errors(ValidateRules(x)) == [];
    var one := AnnotateOne(x.root, SchemaPass, d);
    assert Annotate(x.root, SchemaPass, [d]) == Annotate(one, SchemaPass, []);
  }

  /** `<Total><Percent>60</Percent><Percent>30</Percent></Total>`, all on line 1. */
  const TotalDoc: Node :=
    Elem("Total", Some(1), [], [Elem("Percent", Some(1), [], [Text("60")]),
                                Elem("Percent", Some(1), [], [Text("30")])])

  /** `test_annotate_errors_schematron`: the rule's message shows verbatim
      inside an `SPS-ERROR` comment, added under the root `<Total>` the
      message names. */
  lemma AnnotateRulesTest(rules: Validator, rest: string)
    requires rules(TotalDoc) == [Diagnostic("Element 'Total'" + rest, 1)]
    ensures var annotated := AnnotateErrors(XML(TotalDoc, None, Some(rules)));
            && Contains(Read(annotated), "<!--SPS-ERROR: " + "Element 'Total'" + rest + "-->")
            && ValidPath(annotated.root, [2])
            && At(annotated.root, [2]) == Marker(RulePass, "Element 'Total'" + rest)
  {
    var root := RulesAnnotated(rules, rest);
    RulesMarkerAt(rest);
    RulesMarkerShows(rest);
    assert Read(AnnotateErrors(XML(TotalDoc, None, Some(rules)))) == Serialize(root);
  }

  /** The comment added under `<Total>` follows its two `Percent` children. */
  lemma RulesMarkerAt(rest: string)
    ensures var root := AppendChild(TotalDoc, [], Marker(RulePass, "Element 'Total'" + rest));
            ValidPath(root, [2]) && At(root, [2]) == Marker(RulePass, "Element 'Total'" + rest)
  {
    AppendPlaces(TotalDoc, [], Marker(RulePass, "Element 'Total'" + rest));
    assert [] + [2] == [2];
  }

  /** The text of the annotated tree shows the comment. */
  lemma RulesMarkerShows(rest: string)
    ensures Contains(Serialize(AppendChild(TotalDoc, [], Marker(RulePass, "Element 'Total'" + rest))),
                     "<!--SPS-ERROR: " + "Element 'Total'" + rest + "-->")
  {
    var message := "Element 'Total'" + rest;
    var mk := Marker(RulePass, message);
    var root := AppendChild(TotalDoc, [], mk);
    RulesMarkerAt(rest);
    assert HasNode(root, mk);
    MarkerShows(root, RulePass, message);
    assert "<!--SPS-ERROR: " + message + "-->" == "<!--SPS-ERROR: " + "Element 'Total'" + rest + "-->";
  }

  /** The annotated tree of the Schematron test. */
  lemma RulesAnnotated(rules: Validator, rest: string) returns (root: Node)
    requires rules(TotalDoc) == [Diagnostic("Element 'Total'" + rest, 1)]
    ensures root == AnnotateErrors(XML(TotalDoc, None, Some(rules))).root
    ensures root == AppendChild(TotalDoc, [], Marker(RulePass, "Element 'Total'" + rest))
  {
    var message := "Element 'Total'" + rest;
    var x := XML(TotalDoc, None, Some(rules));
    var d := Diagnostic(message, 1);
    assert message == "Element '" + "Total" + "'" + rest;
    RulesMarkerPlaced(message, rest);
    root := AnnotateErrors(x).root;
    AnnotateSingleRule(x, d);
  }

  /** Where the rule diagnostic of the test lands: under the root `<Total>`,
      which the message names on line 1. */
  lemma RulesMarkerPlaced(message: string, rest: string)
    requires message == "Element '" + "Total" + "'" + rest
    ensures AnnotateOne(TotalDoc, RulePass, Diagnostic(message, 1))
            == AppendChild(TotalDoc, [], Marker(RulePass, message))
  {
    ExtractNamed("Total", rest);
    assert "'" + "Total" + "'" == "'Total'";
    assert Unquote("'Total'") == "Total";
    assert Locator.Resolve(TotalDoc, "Total", 1) == [];
  }

  /** Annotating a document that only the rule set rejects, with one diagnostic. */
  lemma AnnotateSingleRule(x: XML, d: Diagnostic)
    requires IsDocument(x.root) && x.xmlschema.None?
    requires x.schematron.Some? && x.schematron.value(x.root) == [d]
    ensures AnnotateErrors(x).root == AnnotateOne(x.root, RulePass, d)
  {
    assert Errors(ValidateSchema(x)) == [];
    assert Errors(ValidateRules(x)) == [d];
    var one := AnnotateOne(x.root, RulePass, d);
    assert Annotate(x.root, RulePass, [d]) == Annotate(one, RulePass, []);
  }
}

/** `XMLPackerTests`: the sample article and the packer built from it. */
module PackerSamples {
  import opened Wrappers
  import opened Tree
  import opened Packer

  /** The `SAMPLE_XML` article of the packer tests. Line numbers count its XML
      declaration as line 1; whitespace-only text is left out. The five
      referenced file names are parameters, so that the proofs about the
      tree's shape do not depend on how the names are spelled. */
  function Article(pdf: string, e01: string, e02: string, m01: string, suppl01: string): Node
  {
    Elem("article", Some(2), [("dtd-version", "1.0"), ("article-type", "research-article"),
                              ("{http://www.w3.org/XML/1998/namespace}lang", "en")],
         [Front(pdf), Body(e01, e02), Back(m01, suppl01)])
  }

  function Href(file: string): Attr
  {
    (XlinkHref, file)
  }

  /** Supplementary material that carries its own reference. */
  function Front(pdf: string): Node
  {
    Elem("front", Some(6), [], [
      Elem("article-meta", Some(7), [], [
        Elem("supplementary-material", Some(8),
             [("mimetype", "application"), ("mime-subtype", "pdf"), Href(pdf)], [])])])
  }

  /** A graphic inside a formula and an inline graphic inside a paragraph,
      next to a cross-reference. */
  function Body(e01: string, e02: string): Node
  {
    Elem("body", Some(13), [], [
      Elem("sec", Some(14), [], [
        Elem("p", Some(15), [], [
          Text("The Eh measurements... "),
          Elem("xref", Some(15), [("ref-type", "disp-formula"), ("rid", "e01")], [Text("equation 1")]),
          Text("(in mV):")]),
        Elem("disp-formula", Some(16), [("id", "e01")], [
          Elem("graphic", Some(17), [Href(e01)], [])]),
        Elem("p", Some(19), [], [
          Text("We also used an... "),
          Elem("inline-graphic", Some(19), [Href(e02)], []),
          Text(".")])])])
  }

  function Back(m01: string, suppl01: string): Node
  {
    Elem("back", Some(22), [], [
      Elem("app-group", Some(23), [], [Video(m01), Supplement(suppl01)])])
  }

  /** An appendix holding a video. */
  function Video(m01: string): Node
  {
    Elem("app", Some(24), [], [
      Elem("label", Some(25), [], [Text("Apêndice")]),
      Elem("p", Some(26), [], [Text("Vivamus fermentum elit et pellentesque iaculis.")]),
      Elem("media", Some(27), [("mimetype", "video"), ("mime-subtype", "mp4"), Href(m01)], [])])
  }

  /** An appendix holding supplementary material without a reference of its
      own, around a graphic that has one. */
  function Supplement(suppl01: string): Node
  {
    Elem("app", Some(31), [], [
      Elem("supplementary-material", Some(32), [("id", "suppl01")], [
        Elem("label", Some(33), [], [Text("Fig 1.")]),
        Elem("caption", Some(34), [], [Elem("title", Some(34), [], [Text("Material Suplementar")])]),
        Elem("graphic", Some(35), [Href(suppl01)], [])])])
  }

  /** `test_assets`: the sample article refers to exactly the five files. */
  lemma AssetsTest()
    ensures Assets(Article("1234-5678-rctb-45-05-0110-suppl02.pdf", "1234-5678-rctb-45-05-0110-e01.tif",
                           "1234-5678-rctb-45-05-0110-e02.tif", "1234-5678-rctb-45-05-0110-m01.mp4",
                           "1234-5678-rctb-45-05-0110-suppl01.tif"))
         == {"1234-5678-rctb-45-05-0110-e01.tif", "1234-5678-rctb-45-05-0110-suppl01.tif",
             "1234-5678-rctb-45-05-0110-m01.mp4", "1234-5678-rctb-45-05-0110-e02.tif",
             "1234-5678-rctb-45-05-0110-suppl02.pdf"}
  {
    ArticleAssets("1234-5678-rctb-45-05-0110-suppl02.pdf", "1234-5678-rctb-45-05-0110-e01.tif",
                  "1234-5678-rctb-45-05-0110-e02.tif", "1234-5678-rctb-45-05-0110-m01.mp4",
                  "1234-5678-rctb-45-05-0110-suppl01.tif");
  }

  /** Whatever the five names, the article's assets are those names and
      nothing else: no attribute other than the reference contributes. */
  lemma ArticleAssets(pdf: string, e01: string, e02: string, m01: string, suppl01: string)
    ensures Assets(Article(pdf, e01, e02, m01, suppl01)) == {e01, suppl01, m01, e02, pdf}
  {
    ArticleCollect(pdf, e01, e02, m01, suppl01);
  }

  lemma ArticleCollect(pdf: string, e01: string, e02: string, m01: string, suppl01: string)
    ensures Collect(Article(pdf, e01, e02, m01, suppl01)) == {e01, suppl01, m01, e02, pdf}
  {
    FrontAssets(pdf);
    BodyAssets(e01, e02);
    BackAssets(m01, suppl01);
    CollectNonAsset(Article(pdf, e01, e02, m01, suppl01));
    CollectThree(Front(pdf), Body(e01, e02), Back(m01, suppl01));
  }

  lemma FrontAssets(pdf: string)
    ensures Collect(Front(pdf)) == {pdf}
  {
    var attrs := [("mimetype", "application"), ("mime-subtype", "pdf"), Href(pdf)];
    ThirdHref(("mimetype", "application"), ("mime-subtype", "pdf"), pdf);
    var sm := Elem("supplementary-material", Some(8), attrs, []);
    AssetLeaf("supplementary-material", 8, attrs, pdf);
    var meta := Elem("article-meta", Some(7), [], [sm]);
    CollectNonAsset(meta);
    CollectOne(sm);
    CollectNonAsset(Front(pdf));
    CollectOne(meta);
  }

  /** The cross-reference and the paragraphs' text contribute nothing. */
  lemma BodyAssets(e01: string, e02: string)
    ensures Collect(Body(e01, e02)) == {e01, e02}
  {
    var xref := Elem("xref", Some(15), [("ref-type", "disp-formula"), ("rid", "e01")], [Text("equation 1")]);
    CollectNonAsset(xref);
    CollectOne(Text("equation 1"));
    TextNone("equation 1");
    var p1 := Elem("p", Some(15), [], [Text("The Eh measurements... "), xref, Text("(in mV):")]);
    CollectNonAsset(p1);
    CollectThree(Text("The Eh measurements... "), xref, Text("(in mV):"));
    TextNone("The Eh measurements... ");
    TextNone("(in mV):");
    var g := Elem("graphic", Some(17), [Href(e01)], []);
    HrefOnly(e01);
    AssetLeaf("graphic", 17, [Href(e01)], e01);
    var f := Elem("disp-formula", Some(16), [("id", "e01")], [g]);
    CollectNonAsset(f);
    CollectOne(g);
    var ig := Elem("inline-graphic", Some(19), [Href(e02)], []);
    HrefOnly(e02);
    AssetLeaf("inline-graphic", 19, [Href(e02)], e02);
    var p2 := Elem("p", Some(19), [], [Text("We also used an... "), ig, Text(".")]);
    CollectNonAsset(p2);
    CollectThree(Text("We also used an... "), ig, Text("."));
    TextNone("We also used an... ");
    TextNone(".");
    var sec := Elem("sec", Some(14), [], [p1, f, p2]);
    CollectNonAsset(sec);
    CollectThree(p1, f, p2);
    CollectNonAsset(Body(e01, e02));
    CollectOne(sec);
  }

  lemma BackAssets(m01: string, suppl01: string)
    ensures Collect(Back(m01, suppl01)) == {m01, suppl01}
  {
    VideoAssets(m01);
    SupplementAssets(suppl01);
    var group := Elem("app-group", Some(23), [], [Video(m01), Supplement(suppl01)]);
    CollectNonAsset(group);
    CollectTwo(Video(m01), Supplement(suppl01));
    CollectNonAsset(Back(m01, suppl01));
    CollectOne(group);
  }

  /** The media's type attributes do not appear; its reference does. */
  lemma VideoAssets(m01: string)
    ensures Collect(Video(m01)) == {m01}
  {
    var lab := Elem("label", Some(25), [], [Text("Apêndice")]);
    Labelled("label", 25, "Apêndice");
    var p := Elem("p", Some(26), [], [Text("Vivamus fermentum elit et pellentesque iaculis.")]);
    Labelled("p", 26, "Vivamus fermentum elit et pellentesque iaculis.");
    var attrs := [("mimetype", "video"), ("mime-subtype", "mp4"), Href(m01)];
    ThirdHref(("mimetype", "video"), ("mime-subtype", "mp4"), m01);
    var media := Elem("media", Some(27), attrs, []);
    AssetLeaf("media", 27, attrs, m01);
    CollectNonAsset(Video(m01));
    CollectThree(lab, p, media);
  }

  /** The supplementary material itself refers to nothing; the graphic
      nested two levels below the appendix does. */
  lemma SupplementAssets(suppl01: string)
    ensures Collect(Supplement(suppl01)) == {suppl01}
  {
    var lab := Elem("label", Some(33), [], [Text("Fig 1.")]);
    Labelled("label", 33, "Fig 1.");
    var title := Elem("title", Some(34), [], [Text("Material Suplementar")]);
    Labelled("title", 34, "Material Suplementar");
    var caption := Elem("caption", Some(34), [], [title]);
    CollectNonAsset(caption);
    CollectOne(title);
    var g := Elem("graphic", Some(35), [Href(suppl01)], []);
    HrefOnly(suppl01);
    AssetLeaf("graphic", 35, [Href(suppl01)], suppl01);
    var sm := Elem("supplementary-material", Some(32), [("id", "suppl01")], [lab, caption, g]);
    assert OwnAsset(sm).None? by {
      assert GetAttr([("id", "suppl01")], XlinkHref).None?;
    }
    CollectThree(lab, caption, g);
    CollectNonAsset(Supplement(suppl01));
    CollectOne(sm);
  }

  // Steps of the proofs above: one level of the fold at a time.

  lemma AssetLeaf(tag: string, line: nat, attrs: seq<Attr>, file: string)
    requires tag in AssetTags && GetAttr(attrs, XlinkHref) == Some(file)
    ensures Collect(Elem(tag, Some(line), attrs, [])) == {file}
  {
  }

  /** An element that is not an asset contributes only what its children do. */
  lemma CollectNonAsset(n: Node)
    requires n.Elem? && n.tag !in AssetTags
    ensures Collect(n) == CollectAll(n.children)
  {
  }

  lemma TextNone(s: string)
    ensures Collect(Text(s)) == {}
  {
  }

  /** An element around a single text, whose tag refers to no asset. */
  lemma Labelled(tag: string, line: nat, s: string)
    requires tag !in AssetTags
    ensures Collect(Elem(tag, Some(line), [], [Text(s)])) == {}
  {
    CollectNonAsset(Elem(tag, Some(line), [], [Text(s)]));
    CollectOne(Text(s));
    TextNone(s);
  }

  lemma HrefOnly(file: string)
    ensures GetAttr([Href(file)], XlinkHref) == Some(file)
  {
  }

  lemma ThirdHref(a: Attr, b: Attr, file: string)
    requires a.0 != XlinkHref && b.0 != XlinkHref
    ensures GetAttr([a, b, Href(file)], XlinkHref) == Some(file)
  {
    assert [a, b, Href(file)][1..] == [b, Href(file)] && [b, Href(file)][1..] == [Href(file)];
    HrefOnly(file);
    assert GetAttr([b, Href(file)], XlinkHref) == Some(file);
  }

  /** The fold over one, two or three siblings. */
  lemma CollectOne(a: Node)
    ensures CollectAll([a]) == Collect(a)
  {
    assert [a][1..] == [];
  }

  lemma CollectTwo(a: Node, b: Node)
    ensures CollectAll([a, b]) == Collect(a) + Collect(b)
  {
    assert [a, b][1..] == [b] && [b][1..] == [];
    assert CollectAll([b]) == Collect(b);
  }

  lemma CollectThree(a: Node, b: Node, c: Node)
    ensures CollectAll([a, b, c]) == Collect(a) + Collect(b) + Collect(c)
  {
    assert [a, b, c][1..] == [b, c] && [b, c][1..] == [c] && [c][1..] == [];
    assert CollectAll([c]) == Collect(c);
    assert CollectAll([b, c]) == Collect(b) + CollectAll([c]);
  }
}

=== FILE: serializer.dfy ===
/** `XML.read()`: the document as text. Only what the error markers need is
    modelled faithfully: element tags, text content with the markup
    characters escaped, and comments written out verbatim. */
module Serializer {
  import opened Tree

  /** The characters that text content may not hold literally. */
  predicate IsMarkup(c: char)
  {
    c == '&' || c == '<' || c == '>'
  }

  function EscapeChar(c: char): string
  {
    if c == '&' then "&amp;"
    else if c == '<' then "&lt;"
    else if c == '>' then "&gt;"
    else [c]
  }

  /** Text content as serialized: every markup character replaced by its
      entity reference. */
  function Escape(s: string): string
  {
    if s == [] then [] else EscapeChar(s[0]) + Escape(s[1..])
  }

  /** Text without markup characters is written as it is. */
  lemma {:induction false} EscapePlain(s: string)
    requires forall k :: 0 <= k < |s| ==> !IsMarkup(s[k])
    ensures Escape(s) == s
  {
    if s != [] {
      EscapePlain(s[1..]);
      assert s == [s[0]] + s[1..];
    }
  }

  /** Reads entity references back as the characters they stand for. */
  function Unescape(s: string): string
    decreases |s|
  {
    if s == [] then []
    else if |s| >= 5 && s[..5] == "&amp;" then "&" + Unescape(s[5..])
    else if |s| >= 4 && s[..4] == "&lt;" then "<" + Unescape(s[4..])
    else if |s| >= 4 && s[..4] == "&gt;" then ">" + Unescape(s[4..])
    else [s[0]] + Unescape(s[1..])
  }

  /** Escaping loses nothing: the text content can be read back exactly. */
  lemma {:induction false} UnescapeEscape(s: string)
    ensures Unescape(Escape(s)) == s
  {
    if s != [] {
      UnescapeEscape(s[1..]);
      UnescapeChar(s[0], Escape(s[1..]));
      assert s == [s[0]] + s[1..];
    }
  }

  /** One escaped character is read back before the rest of the text. */
  lemma UnescapeChar(c: char, rest: string)
    ensures Unescape(EscapeChar(c) + rest) == [c] + Unescape(rest)
  {
    if c == '&' {
      UnescapeAmp(rest);
    } else if c == '<' {
      UnescapeLt(rest);
    } else if c == '>' {
      UnescapeGt(rest);
    } else {
      var e := EscapeChar(c) + rest;
      assert e[0] == c && e[1..] == rest;
    }
  }

  lemma UnescapeAmp(rest: string)
    ensures Unescape(EscapeChar('&') + rest) == ['&'] + Unescape(rest)
  {
    var e := EscapeChar('&') + rest;
    assert e[..5] == "&amp;" && e[5..] == rest;
  }

  lemma UnescapeLt(rest: string)
    ensures Unescape(EscapeChar('<') + rest) == ['<'] + Unescape(rest)
  {
    var e := EscapeChar('<') + rest;
    assert e[1] == 'l';
    assert e[..4] == "&lt;" && e[4..] == rest;
  }

  lemma UnescapeGt(rest: string)
    ensures Unescape(EscapeChar('>') + rest) == ['>'] + Unescape(rest)
  {
    var e := EscapeChar('>') + rest;
    assert e[1] == 'g';
    assert e[..4] == "&gt;" && e[4..] == rest;
  }

  function EscapeAttrValue(s: string): string
  {
    if s == [] then []
    else (if s[0] == '"' then "&quot;" else EscapeChar(s[0])) + EscapeAttrValue(s[1..])
  }

  /** Attributes as ` name="value"` each, in document order. */
  function SerializeAttrs(attrs: seq<Attr>): string
  {
    if attrs == [] then []
    else " " + attrs[0].0 + "=\"" + EscapeAttrValue(attrs[0].1) + "\"" + SerializeAttrs(attrs[1..])
  }

  /** The text of a node: an element without children is written as an empty
      element tag. */
  function Serialize(n: Node): (r: string)
    ensures n.Text? ==> Unescape(r) == n.content
    decreases n, 1
  {
    match n
    case Text(s) =>
      UnescapeEscape(s);
      Escape(s)
    case Comment(s) => "<!--" + s + "-->"
    case Elem(tag, _, attrs, cs) =>
      if cs == [] then "<" + tag + SerializeAttrs(attrs) + "/>"
      else StartTag(tag, attrs) + SerializeAll(cs) + EndTag(tag)
  }

  function StartTag(tag: string, attrs: seq<Attr>): string
  {
    "<" + tag + SerializeAttrs(attrs) + ">"
  }

  function EndTag(tag: string): string
  {
    "</" + tag + ">"
  }

  /** The children's texts in order. */
  function SerializeAll(cs: seq<Node>): string
    decreases cs, 0
  {
    if cs == [] then [] else Serialize(cs[0]) + SerializeAll(cs[1..])
  }

  /** An element with children is its start tag, its children, its end tag. */
  lemma ElemSerialized(n: Node)
    requires n.Elem? && n.children != []
    ensures Serialize(n) == StartTag(n.tag, n.attrs) + SerializeAll(n.children) + EndTag(n.tag)
  {
  }

  lemma SeqAssoc5(a: string, b: string, c: string, x: string, d: string, e: string, f: string)
    ensures a + (b + (c + x + d) + e) + f == (a + b + c) + x + (d + e + f)
  {
  }

  /** `needle` occurs somewhere in `hay`. */
  ghost predicate Contains(hay: string, needle: string)
  {
    exists pre, post :: hay == pre + needle + post
  }

  /** Each child's text occurs in the children's text, between `pre` and `post`. */
  lemma {:induction false} ChildSerialized(cs: seq<Node>, k: nat) returns (pre: string, post: string)
    requires k < |cs|
    ensures SerializeAll(cs) == pre + Serialize(cs[k]) + post
    decreases k
  {
    if k == 0 {
      pre, post := [], SerializeAll(cs[1..]);
    } else {
      var pre', post' := ChildSerialized(cs[1..], k - 1);
      assert cs[1..][k - 1] == cs[k];
      pre, post := Serialize(cs[0]) + pre', post';
      assert SerializeAll(cs) == Serialize(cs[0]) + (pre' + Serialize(cs[k]) + post');
    }
  }

  /** The text of every node of the tree occurs in the text of the tree. */
  lemma {:induction false} SubtreeSerialized(n: Node, p: Path) returns (pre: string, post: string)
    requires ValidPath(n, p)
    ensures Serialize(n) == pre + Serialize(At(n, p)) + post
    decreases p
  {
    if p == [] {
      pre, post := [], [];
    } else {
      var c := n.children[p[0]];
      var pre1, post1 := SubtreeSerialized(c, p[1..]);
      var pre2, post2 := ChildSerialized(n.children, p[0]);
      var open, close := StartTag(n.tag, n.attrs), EndTag(n.tag);
      assert At(n, p) == At(c, p[1..]);
      ElemSerialized(n);
      pre, post := open + pre2 + pre1, post1 + post2 + close;
      var x := Serialize(At(n, p));
      calc {
        Serialize(n);
        open + SerializeAll(n.children) + close;
        open + (pre2 + Serialize(c) + post2) + close;
        open + (pre2 + (pre1 + x + post1) + post2) + close;
        { SeqAssoc5(open, pre2, pre1, x, post1, post2, close); }
        pre + x + post;
      }
    }
  }

  /** The text of every node of the tree occurs in the text of the tree. */
  lemma SubtreeContained(n: Node, p: Path)
    requires ValidPath(n, p)
    ensures Contains(Serialize(n), Serialize(At(n, p)))
  {
    var pre, post := SubtreeSerialized(n, p);
  }
}

=== FILE: stylechecker.dfy ===
/** `stylechecker.XML`: a parsed document together with the schema and the
    Schematron rule set attached to it, and the operations the checker runs
    on it. The file system is a map from the paths that exist to the
    documents they parse to. */
module StyleChecker {
  import opened Wrappers
  import opened Tree
  import Locator
  import opened ElementName
  import opened Validation
  import opened Annotator
  import opened Serializer

  /** What `XML(...)` is built from: a file path or an already parsed tree. */
  datatype Source = FromPath(path: string) | FromTree(root: Node)

  datatype InputError = FileNotFound(path: string)

  datatype XML = XML(root: Node, xmlschema: Option<Validator>, schematron: Option<Validator>)

  /** `XML(source)`: a path is resolved through the file system, a tree is
      used as it is; neither validator is attached yet. A parsed tree is
      rooted at an element, as every lxml tree is. */
  function NewXML(files: map<string, Document>, source: Source): (r: Result<XML, InputError>)
    requires source.FromTree? ==> source.root.Elem?
    ensures source.FromTree? ==> r == Success(XML(source.root, None, None))
    ensures source.FromPath? ==> (r.Success? <==> source.path in files)
    ensures source.FromPath? && source.path in files ==> r.value.root == files[source.path]
    ensures source.FromPath? && source.path !in files ==> r == Failure(FileNotFound(source.path))
    ensures r.Success? ==> r.value.xmlschema.None? && r.value.schematron.None?
    ensures r.Success? ==> r.value.root.Elem?
    ensures source.FromPath? && r.Success? ==> IsDocument(r.value.root)
  {
    match source
    case FromTree(root) => Success(XML(root, None, None))
    case FromPath(path) =>
      if path in files then Success(XML(files[path], None, None)) else Failure(FileNotFound(path))
  }

  /** `xml.validate()`: the schema pass. */
  function ValidateSchema(x: XML): (r: Result<Report, ConfigError>)
    ensures x.xmlschema.None? <==> r.Failure?
    ensures r.Success? ==> (r.value.valid <==> |r.value.errors| == 0)
    ensures r.Success? ==> r.value.errors == x.xmlschema.value(x.root)
  {
    Validate(x.xmlschema, x.root)
  }

  /** `xml._validate_sch()`: the Schematron pass. */
  function ValidateRules(x: XML): (r: Result<Report, ConfigError>)
    ensures x.schematron.None? <==> r.Failure?
    ensures r.Success? ==> (r.value.valid <==> |r.value.errors| == 0)
    ensures r.Success? ==> r.value.errors == x.schematron.value(x.root)
  {
    Validate(x.schematron, x.root)
  }

  /** The diagnostics of a pass that ran; none for a pass not configured. */
  function Errors(r: Result<Report, ConfigError>): seq<Diagnostic>
  {
    if r.Success? then r.value.errors else []
  }

  /** `xml.annotate_errors()`: both configured passes validate the document
      as it was given, then the schema diagnostics and after them the
      Schematron diagnostics are annotated. */
  function AnnotateErrors(x: XML): (r: XML)
    requires x.root.Elem?
    ensures r.root.Elem? && r.root.tag == x.root.tag && r.root.line == x.root.line
    ensures r.xmlschema == x.xmlschema && r.schematron == x.schematron
    ensures CountMarkers(r.root)
            == CountMarkers(x.root) + Named(Errors(ValidateSchema(x))) + Named(Errors(ValidateRules(x)))
    ensures Strip(r.root) == Strip(x.root)
    ensures Extends(x.root, r.root)
  {
    var schemaErrors := Errors(ValidateSchema(x));
    var ruleErrors := Errors(ValidateRules(x));
    var mid := Annotate(x.root, SchemaPass, schemaErrors);
    var root := Annotate(mid, RulePass, ruleErrors);
    ExtendsTrans(x.root, mid, root);
    x.(root := root)
  }

  /** `xml.read()`: the whole document as text, in which the text of every
      node of the tree occurs. */
  function Read(x: XML): (r: string)
    ensures forall q :: ValidPath(x.root, q) ==> Contains(r, Serialize(At(x.root, q)))
  {
    forall q | ValidPath(x.root, q)
      ensures Contains(Serialize(x.root), Serialize(At(x.root, q)))
    {
      SubtreeContained(x.root, q);
    }
    Serialize(x.root)
  }

  /** `xml.find_element(tag, line, fallback)`. */
  function FindElement(x: XML, tag: string, line: nat, fallback: bool): (r: Result<Node, Locator.LookupError>)
    requires x.root.Elem?
    ensures Locator.IsMatch(x.root, tag, line) ==> r == Success(x.root)
    ensures !Locator.NoMatch(x.root, tag, line) ==>
              r.Success? && exists p :: Locator.FirstMatch(x.root, tag, line, p) && r.value == At(x.root, p)
    ensures Locator.NoMatch(x.root, tag, line) ==>
              r == (if fallback then Success(x.root) else Failure(Locator.NotFound(tag, line)))
    ensures r.Success? && r.value != x.root ==> Locator.IsMatch(r.value, tag, line)
  {
    Locator.FindElement(x.root, tag, line, fallback)
  }

  /** After `annotate_errors()`, `read()` shows every diagnostic of either
      pass whose message names an element, verbatim inside its pass's
      marker: `<SPS-ERROR>message</SPS-ERROR>` or `<!--SPS-ERROR: message-->`. */
  lemma AnnotateErrorsShowsAll(x: XML)
    requires IsDocument(x.root)
    ensures forall d :: d in Errors(ValidateSchema(x)) && Extract(d.message).Some? ==>
              Contains(Read(AnnotateErrors(x)), MarkerText(SchemaPass, d.message))
    ensures forall d :: d in Errors(ValidateRules(x)) && Extract(d.message).Some? ==>
              Contains(Read(AnnotateErrors(x)), MarkerText(RulePass, d.message))
  {
    var ds1, ds2 := Errors(ValidateSchema(x)), Errors(ValidateRules(x));
    var mid := Annotate(x.root, SchemaPass, ds1);
    var final := AnnotateErrors(x).root;
    forall d | d in ds1 && Extract(d.message).Some?
      ensures Contains(Read(AnnotateErrors(x)), MarkerText(SchemaPass, d.message))
    {
      var i :| 0 <= i < |ds1| && ds1[i] == d;
      AnnotateMarksAll(x.root, SchemaPass, ds1, i);
      var q :| ValidPath(mid, q) && At(mid, q) == Marker(SchemaPass, d.message);
      AnnotateKeeps(mid, RulePass, ds2, q, SchemaPass, d.message);
      MarkerShows(final, SchemaPass, d.message);
    }
    forall d | d in ds2 && Extract(d.message).Some?
      ensures Contains(Read(AnnotateErrors(x)), MarkerText(RulePass, d.message))
    {
      var i :| 0 <= i < |ds2| && ds2[i] == d;
      AnnotateMarksAll(mid, RulePass, ds2, i);
      MarkerShows(final, RulePass, d.message);
    }
  }

  /** A document every configured validator accepts is left untouched. */
  lemma AnnotateValidUnchanged(x: XML)
    requires x.root.Elem?
    requires ValidateSchema(x).Success? ==> ValidateSchema(x).value.valid
    requires ValidateRules(x).Success? ==> ValidateRules(x).value.valid
    ensures AnnotateErrors(x) == x
  {
  }
}

=== FILE: tree.dfy ===
/** The parsed document: an immutable tree of element, text and comment nodes.
    A node inside the tree is addressed by a path of child indices from the
    root, which plays the part of the parent back-reference of the original
    tree: `At(root, p)` is the node and every prefix of `p` is an ancestor. */
module Tree {
  import opened Wrappers

  /** An attribute name (in `{namespace}local` form when namespaced) and its value. */
  type Attr = (string, string)

  /** A document node. `line` is the 1-based source line the parser recorded;
      nodes created after parsing (the error markers) have none. */
  datatype Node =
    | Elem(tag: string, line: Option<nat>, attrs: seq<Attr>, children: seq<Node>)
    | Text(content: string)
    | Comment(content: string)

  /** The root of a parsed document: an element with a source line. */
  predicate IsDocument(root: Node)
  {
    root.Elem? && root.line.Some?
  }

  /** What an existing file parses to. */
  type Document = n: Node | IsDocument(n) witness Elem("", Some(1), [], [])

  type Path = seq<nat>

  /** The value of the first attribute called `name`, if any. */
  function GetAttr(attrs: seq<Attr>, name: string): (r: Option<string>)
    ensures r.Some? <==> exists i :: 0 <= i < |attrs| && attrs[i].0 == name
    ensures r.Some? ==> exists i :: 0 <= i < |attrs| && attrs[i] == (name, r.value)
  {
    if attrs == [] then None
    else if attrs[0].0 == name then Some(attrs[0].1)
    else
      var r := GetAttr(attrs[1..], name);
      assert forall i :: 0 < i < |attrs| ==> attrs[i] == attrs[1..][i - 1];
      r
  }

  /** `p` leads from `n` through element children to some node. */
  predicate ValidPath(n: Node, p: Path)
    decreases p
  {
    p == [] || (n.Elem? && p[0] < |n.children| && ValidPath(n.children[p[0]], p[1..]))
  }

  /** The node that `p` leads to. */
  function At(n: Node, p: Path): Node
    requires ValidPath(n, p)
    decreases p
  {
    if p == [] then n else At(n.children[p[0]], p[1..])
  }

  /** `q` is an ancestor-or-self location of `p`. */
  predicate IsPrefix(q: Path, p: Path)
  {
    |q| <= |p| && q == p[..|q|]
  }

  /** Document (pre-order) order: `q` is visited strictly before `p`, which is
      the case when `q` is a proper ancestor of `p` or lies in an earlier
      sibling subtree of one of `p`'s ancestors. */
  predicate Before(q: Path, p: Path)
    decreases |q|
  {
    if p == [] then false
    else if q == [] then true
    else q[0] < p[0] || (q[0] == p[0] && Before(q[1..], p[1..]))
  }

  /** Walking `q` and then `r` is walking `q + r`. */
  lemma {:induction false} AtConcat(n: Node, q: Path, r: Path)
    requires ValidPath(n, q)
    ensures ValidPath(n, q + r) <==> ValidPath(At(n, q), r)
    ensures ValidPath(n, q + r) ==> At(n, q + r) == At(At(n, q), r)
    decreases q
  {
    if q != [] {
      assert (q + r)[0] == q[0];
      assert (q + r)[1..] == q[1..] + r;
      AtConcat(n.children[q[0]], q[1..], r);
    } else {
      assert q + r == r;
    }
  }

  /** Pre-order is a strict total order on distinct locations. */
  lemma {:induction false} BeforeTotal(q: Path, p: Path)
    ensures q == p || Before(q, p) || Before(p, q)
    ensures !(Before(q, p) && Before(p, q))
    decreases |q|
  {
    if q != [] && p != [] {
      BeforeTotal(q[1..], p[1..]);
      if q[0] == p[0] && q[1..] == p[1..] {
        assert q == [q[0]] + q[1..];
        assert p == [p[0]] + p[1..];
      }
    }
  }
}

=== FILE: validation.dfy ===
/** The two validation passes. The XML Schema and ISO Schematron engines are
    not modelled: each is an opaque validator that maps a document to the
    diagnostics it reports, in the order it reports them. */
module Validation {
  import opened Wrappers
  import opened Tree

  /** One reported failure: the validator's message and the source line of
      the element it concerns. */
  datatype Diagnostic = Diagnostic(message: string, line: nat)

  /** A compiled schema or rule set, applied to a document. */
  type Validator = Node -> seq<Diagnostic>

  /** The `(result, errors)` pair a validation returns. */
  datatype Report = Report(valid: bool, errors: seq<Diagnostic>)

  /** Validating without a schema (or rule set) configured. */
  datatype ConfigError = ValidationUnavailable

  /** Runs `validator` on `doc`: the document is valid exactly when the
      validator reports nothing, and the report carries what it reported. */
  function Validate(validator: Option<Validator>, doc: Node): (r: Result<Report, ConfigError>)
    ensures validator.None? <==> r == Failure(ValidationUnavailable)
    ensures r.Success? ==> (r.value.valid <==> |r.value.errors| == 0)
    ensures r.Success? ==> r.value.errors == validator.value(doc)
  {
    match validator
    case None => Failure(ValidationUnavailable)
    case Some(v) =>
      var errors := v(doc);
      Success(Report(|errors| == 0, errors))
  }
}

=== FILE: wrappers.dfy ===
/** Failure-compatible wrappers used across the model: `Option` for a search
    that may find nothing, `Result` for an operation that raises. */
module Wrappers {

  datatype Option<+T> = None | Some(value: T)

  datatype Result<+R, +E> = Success(value: R) | Failure(error: E)
}
